=== FILE: README.md ===
# Vigenère cipher: a verified model

This project models the cipher engine of a small command-line Vigenère
cipher utility (`vigenere_cipher.py`) and proves its properties in Dafny.

- **Tabula recta** (`TabulaRecta`, `table_generator`). Two nested
  dictionaries, each keyed first by a key letter and then by a message letter.
  - The encryption square maps each letter to the letter shifted forward by
    the key letter's index.
  - The decryption square shifts it back.
  - Both are built as the source builds them: each row is a rotation of the
    alphabet, sliced from a doubled alphabet and zipped with the alphabet.
- **Key stream** (`KeyStream`, `message_matcher`). The key phrase is repeated
  as many whole times as fit in the message, then followed by the key prefix
  that covers the rest.
- **Converter** (`Converter`, `converter`). Walks the key stream and the
  message side by side.
  - Each alphabetic character is replaced by its table entry.
  - Every other character is copied. It still uses up a key-stream position.
- **Sessions** (`Session`).
  - Encrypt (`encryptor`) lower-cases each typed line. It stops at the first
    line equal to the terminator. Every line before it is encrypted and appended
    to the file with a newline.
  - Decrypt (`decryptor`) cuts the file into lines with `readlines`. It
    decrypts each line, newline included, and strips newlines from both ends
    before printing.
- **Entry point** (`Cli`, `main`). The key phrase is lower-cased and checked
  to be non-empty and alphabetic. Then the squares are built and the mode
  flags are dispatched.

Interactive input, the file and the printed output are all parameters. The
typed lines are a finite sequence and the file is its text. A run's outcome
is a value: the lines appended, the lines printed, the rejection message or
the usage message.

Letters are the 52 ASCII letters. `str.lower` and `str.isalpha` are modelled
on them.

## Model

| member | source | states |
|---|---|---|
| Letters.LowerChar | vigenere_cipher.py:101 | lower-casing one character keeps letters letters and non-letters non-letters, leaves every character that is not an upper-case letter unchanged, and maps an upper-case letter to the lower-case letter with the same alphabet index |
| Letters.LowerStr | vigenere_cipher.py:147 | `.lower()` keeps the length, leaves no upper-case letter, keeps each position alphabetic exactly when it was, leaves every character that is not an upper-case letter in place, and moves each upper-case letter to its lower-case partner |
| Letters.LowerStrFixesLowerText | vigenere_cipher.py:101 | lower-casing a text that has no upper-case letters changes nothing |
| Letters.LowerStrIdempotent | vigenere_cipher.py:101 | lower-casing twice gives the same text as lower-casing once |
| Letters.IsAlpha | vigenere_cipher.py:75 | no contract of its own: `str.isalpha` on one character, true exactly for the 52 ASCII letters; Converter.Convert states what it decides |
| Letters.IsAlphaText | vigenere_cipher.py:148 | no contract of its own: `str.isalpha` on a whole string, false for the empty string; Letters.ValidLoweredKeyIsLetters states what passing it gives |
| Letters.ValidLoweredKeyIsLetters | vigenere_cipher.py:147-148 | a key phrase that passes the `isalpha` check after lower-casing is non-empty and made only of lower-case letters |
| TabulaRecta.DoubledLiteral | vigenere_cipher.py:18 | the doubled alphabet the rows are sliced from is exactly the 52-character literal of the source |
| TabulaRecta.Row | vigenere_cipher.py:18-22 | row `i`, sliced from the doubled alphabet, has 26 letters and holds the letter with index `(i + j) mod 26` at position `j`, so it is the alphabet rotated left by `i` |
| TabulaRecta.ZipMap | vigenere_cipher.py:23-24 | the dictionary built from the pairs of two strings has exactly the first string's characters as keys, and when those are distinct each key maps to the character beside it |
| TabulaRecta.RowDistinct | vigenere_cipher.py:22 | no letter appears twice in a row, so zipping the row as keys loses no pair |
| TabulaRecta.EncryptPairing | vigenere_cipher.py:23 | zipping the alphabet with row `i` gives a row defined on exactly the lower-case letters that shifts each forward by `i` |
| TabulaRecta.DecryptPairing | vigenere_cipher.py:24 | zipping row `i` with the alphabet gives a row defined on exactly the lower-case letters that shifts each back by `i` |
| TabulaRecta.Generate | vigenere_cipher.py:21-24 | after the loop has handled the first `n` key letters, both squares have rows for exactly those letters, and each row is the shift (encrypt) or the inverse shift (decrypt) by the key letter's index |
| TabulaRecta.TableGenerator | vigenere_cipher.py:6-26 | the two returned squares are full: a row for every lower-case key letter and no other, each row total over the lower-case letters, shifting forward (encrypt) or back (decrypt) by the key letter's index |
| TabulaRecta.ShiftInverse | vigenere_cipher.py:23-24 | shifting a letter by `n` and then by `26 - n` gives it back, in either order |
| TabulaRecta.DecryptUndoesEncrypt | vigenere_cipher.py:23-24 | in any full pair of squares, the decryption row of a key letter undoes its encryption row, and an encrypted letter is still a lower-case letter |
| TabulaRecta.EncryptUndoesDecrypt | vigenere_cipher.py:23-24 | in any full pair of squares, the encryption row of a key letter undoes its decryption row |
| TabulaRecta.EncryptTable | vigenere_cipher.py:150 | the first square `table_generator` returns, `encrypt_table`, is a full encryption square |
| TabulaRecta.DecryptTable | vigenere_cipher.py:150 | the second square `table_generator` returns, `decrypt_table`, is a full decryption square |
| TabulaRecta.GeneratedTablesInverse | vigenere_cipher.py:6-26 | in the squares `table_generator` returns, decryption undoes encryption and encryption undoes decryption, for every key letter and letter |
| KeyStream.Repeat | vigenere_cipher.py:48 | `key * num_reps` has `num_reps` times the key's length and holds `key[i mod len(key)]` at position `i` |
| KeyStream.MessageMatcher | vigenere_cipher.py:44-52 | the key stream is exactly as long as the message, so the assertion at line 50 holds, and position `i` holds `key[i mod len(key)]` |
| KeyStream.StreamPrefix | vigenere_cipher.py:44-50 | the stream for a message is a prefix of the stream for any extension of that message, because the key restarts at every message |
| Converter.Step | vigenere_cipher.py:75-78 | no contract of its own: one pass of the converter loop, the table entry for a letter and the character itself otherwise; Converter.Convert states it for every position |
| Converter.Convert | vigenere_cipher.py:73-80 | the output is as long as the shorter of stream and message; a non-alphabetic character is copied to its own position; an alphabetic one is replaced by the table entry for the key letter beside it |
| Converter.FullTableLookupable | vigenere_cipher.py:76 | with a full square, a key stream of letters and a message with no upper-case letters, no lookup raises `KeyError` |
| Converter.ConvertIsVigenereSum | vigenere_cipher.py:73-80 | with an encryption square, the converter is the classical Vigenère sum, defined without tables: each letter moves forward by its key letter's index and every other character stays |
| Converter.ConvertIsVigenereDifference | vigenere_cipher.py:73-80 | with a decryption square, the converter is the Vigenère difference: each letter moves back by its key letter's index |
| Converter.SumIsLowerText | vigenere_cipher.py:75-76 | the Vigenère sum of text without upper-case letters has no upper-case letters, because letters map to letters |
| Converter.ConvertRoundTrip | vigenere_cipher.py:73-80 | converting with the decryption square undoes converting with the encryption square, under the same key stream |
| Converter.StreamLetters | vigenere_cipher.py:44-48 | a key of letters gives a key stream of letters |
| Converter.KeyedRoundTrip | vigenere_cipher.py:32-80 | a message with no upper-case letters, encrypted and then decrypted with the stream `message_matcher` aligns to it and the squares `table_generator` builds, comes back unchanged |
| Session.FullTableCoversKey | vigenere_cipher.py:150 | a square from `table_generator` has a total row for every letter of a key made of letters |
| Session.StreamLookupable | vigenere_cipher.py:104-105 | when the square covers the key, the converter's lookups on a lower-cased line are all defined |
| KeyStream.StreamDependsOnLength | vigenere_cipher.py:44-50 | the key stream depends only on the message's length, not on its characters |
| Session.Encryptor | vigenere_cipher.py:99-106 | the session writes at most one line per typed line; no written line came from a typed line equal to the terminator after lower-casing; it stopped exactly when typed lines remain, and then the next typed line, lower-cased, equals the terminator |
| Session.EncryptLine | vigenere_cipher.py:104-106 | no contract of its own: one pass of the encrypt loop, the lower-cased line transformed with the stream aligned to it, then a newline; its properties are stated by Session.EncryptorWrites, Cli.EncryptLineIsLine and Session.LineRoundTrip |
| Session.EncryptorWrites | vigenere_cipher.py:101-106 | the line written at position `i` is typed line `i`, lower-cased, converted with the key stream aligned to it, followed by a newline |
| Session.UpperCaseTerminatorNeverMatches | vigenere_cipher.py:101-103 | a terminator holding an upper-case letter never matches a lower-cased line, so every typed line is written and the session does not stop |
| Session.StripNewlines | vigenere_cipher.py:128 | no contract of its own: `strip('\n')`, removing newlines from both ends; its property is stated by Session.StripAddedNewline |
| Session.StripAddedNewline | vigenere_cipher.py:128 | `strip('\n')` on a text without newlines followed by one newline gives back that text |
| Session.DecryptLine | vigenere_cipher.py:127-128 | no contract of its own: one pass of the decrypt loop, aligning the stream to the line as read and stripping newlines after the transform; its properties are stated by Session.NewlineDoesNotShiftKey and Session.LineRoundTrip |
| Session.Decryptor | vigenere_cipher.py:125-129 | the decrypt session prints exactly one line per line read |
| Session.DecryptorInOrder | vigenere_cipher.py:126-129 | the line printed at position `i` is the decryption of the line read at position `i`, with newlines stripped |
| Session.FullTableKeepsLines | vigenere_cipher.py:73-80 | with a full square, converting text without upper-case letters gives such text, and adds no newline |
| Session.ConvertDropsNewline | vigenere_cipher.py:73-80 | converting a line that ends in a newline gives the conversion of the line without it, followed by the newline |
| Session.NewlineDoesNotShiftKey | vigenere_cipher.py:127-128 | aligning the key stream to a line with its newline, then stripping the newline, gives the same result as aligning it to the line without the newline |
| Session.LineRoundTrip | vigenere_cipher.py:101-129 | a line the encrypt session writes is read back by the decrypt session as the lower-cased typed line, under any full pair of squares and the same key |
| Session.ReadLines | vigenere_cipher.py:126 | no contract of its own: `readlines`, the text cut after every newline; its properties are stated by Session.ReadLinesShape, Session.ReadLinesJoin, Session.ReadLinesOfLines and Session.ReadLinesAppend |
| Session.LineEnd | vigenere_cipher.py:126 | the first line of a text ends after its first newline, or at the end of the text, and holds no newline before its end |
| Session.ReadLinesShape | vigenere_cipher.py:126 | every line `readlines` returns is non-empty with no newline before its end, and every line except the last ends in a newline |
| Session.ReadLinesJoin | vigenere_cipher.py:126 | the lines `readlines` returns join back into the file text: nothing is lost, added or reordered |
| Session.ReadLinesOfLines | vigenere_cipher.py:106 | reading back a text written as complete lines gives exactly those lines |
| Session.Concat | vigenere_cipher.py:106 | no contract of its own: the successive `f.write` calls joined into the text they add; Session.ReadLinesJoin, Session.ReadLinesOfLines and Cli.EncryptThenDecrypt state its properties |
| Session.ReadLinesAppend | vigenere_cipher.py:99 | appending to a file that ends in a newline leaves the old lines as they were and adds the new ones after them |
| Session.ReadLinesLower | vigenere_cipher.py:126 | cutting a text without upper-case letters into lines gives lines without upper-case letters |
| Session.ConcatLower | vigenere_cipher.py:106 | joining lines without upper-case letters gives text without upper-case letters |
| Cli.KeyAccepted | vigenere_cipher.py:147-148 | no contract of its own: the key check, the lower-cased key phrase passing `isalpha`; Letters.ValidLoweredKeyIsLetters and Cli.Run state what it decides |
| Cli.FileAfter | vigenere_cipher.py:99-106 | no contract of its own: the file opened in append mode gets the written lines after its old text, and nothing else writes to it; Session.ReadLinesAppend and Cli.EncryptThenDecrypt state its properties |
| Cli.Run | vigenere_cipher.py:147-157 | the run is rejected with the key message exactly when the lower-cased key phrase is empty or holds a non-letter, before any square or file is touched; with a valid key, `-e` appends (winning over `-d`), `-d` alone prints one line per file line, and no flag prints the usage message; the appended lines and stop flag are exactly those of the encrypt session run with the lowered key and the encryption square `table_generator` returns first, and the printed lines are exactly those of the decrypt session run with the lowered key and the decryption square it returns second, on the lines of the file |
| Cli.DecryptorAppend | vigenere_cipher.py:126-129 | decrypting the lines of two texts one after the other prints the first text's output followed by the second's |
| Cli.WrittenLines | vigenere_cipher.py:101-106 | with a full encryption square, every line the encrypt session writes is a complete line with no upper-case letters |
| Cli.EncryptLineIsLine | vigenere_cipher.py:104-106 | one encrypted line of lower-case text without newlines, plus its newline, is a complete line with no upper-case letters |
| Cli.DecryptEncrypted | vigenere_cipher.py:101-129 | decrypting the lines an encrypt session wrote prints the typed lines, lower-cased, up to the terminator |
| Cli.EncryptThenDecrypt | vigenere_cipher.py:147-157 | with a valid key, an encrypt run appends to a file of complete lower-case lines; a decrypt run with the same key then prints the file's earlier output followed by the typed lines, lower-cased, up to the terminator |

## Left out

- Configuration loading (YAML), argument parsing, the interactive prompt, opening and closing the file, and `print` are outside the model. Their values are parameters: the key phrase, the mode flags, the terminator, the typed lines and the file text.
- Unicode: `str.isalpha` and `str.lower` are modelled on ASCII letters only. The model copies a non-ASCII alphabetic character in the file unchanged, where the source raises `KeyError` at line 76, since the decrypt session does not lower-case. The model also copies such a character in a typed line unchanged. There the source raises `KeyError` at line 76 too, except for characters whose `.lower()` yields ASCII letters: U+212A KELVIN SIGN is encrypted as `k`, and U+0130 lowers to `i` followed by U+0307, so the source encrypts the `i`, copies the combining mark, and lengthens the line by one, which shifts the key stream under every later character. The terminator comparison at line 102 sees the lowered line too, so with non-ASCII letters the session can stop where the model writes the line, or the reverse.
- Cli.Run: rejects a key phrase holding a non-ASCII alphabetic character (such as `é`), which the source accepts at line 148. The source then prints the usage message when no mode flag is given, and otherwise raises `KeyError` at line 76 once a message letter lines up with that key character. A character such as U+212A KELVIN SIGN, which `.lower()` turns into the ASCII `k`, is accepted and used as `k` by the source but rejected by the model.
- KeyStream.MessageMatcher: requires a non-empty key. On an empty key the source raises `ZeroDivisionError` at line 46, which `main` never reaches because its check at line 148 rejects the empty key first.
- KeyStream.MessageMatcher: the float division and `int()` truncation at line 46 are modelled as natural-number division. They agree on lengths this small; float rounding on huge lengths is not modelled.
- Converter.Convert: requires every lookup to be defined (`Lookupable`). The source raises `KeyError` otherwise. The operations that call it prove that this requirement holds.
- Cli.Run: requires the file to have no upper-case letters when decrypting. On such a file the source raises `KeyError` part-way through printing, and partial output before an exception is not modelled.
- Session.Encryptor: end of input (`EOFError` from `input()`) is represented as `stopped == false` with every typed line written; the exception itself is not modelled.
- Session.Encryptor: its contract states the stopping rule. The content of each written line is stated by Session.EncryptorWrites.
- Session.Decryptor: its contract states only the number of printed lines. The content of each printed line is stated by Session.DecryptorInOrder and Session.LineRoundTrip.
- Session.ReadLines: text-mode universal-newline translation (`\r\n` and `\r` read as `\n`) is not modelled; lines are split on `\n` only.
- Cli.Run: a missing `-k` argument (`None`, which has no `.lower()`), a missing file when decrypting (`FileNotFoundError`), and running with assertions disabled (`python -O`, which skips the key check) are not modelled.
- Cli.Run: the key check is the assertion at line 148, which raises `AssertionError`. It is modelled as the `KeyRejected` outcome carrying the assertion's message.
- Durability, and other processes writing the file at the same time, are not modelled.

=== FILE: cli.dfy ===
/**
 The entry point: the key phrase is lower-cased and validated, the squares
 are built, and the mode flags pick the encrypt session, the decrypt
 session or the usage message. The file is represented by its text: the
 encrypt session appends to it, the decrypt session reads it.
 */
module Cli {
  import opened Letters
  import opened TabulaRecta
  import opened Converter
  import opened KeyStream
  import opened Session

  /** What one run of the program does. */
  datatype Outcome =
    | KeyRejected(reason: string)
    | Appended(lines: seq<string>, stopped: bool)
    | Printed(lines: seq<string>)
    | Usage(message: string)

  const KeyMessage: string := "Key word must not contain non alphabet characters"
  const UsageMessage: string := "Please specify `-e` to encrypt or `-d` to decrypt"

  /** The key phrase passes the check once lower-cased: non-empty and alphabetic. */
  predicate KeyAccepted(key: string) {
    IsAlphaText(LowerStr(key))
  }

  /**
   `main`. A key phrase that is empty or holds a non-letter is rejected
   before the squares are built or the file is opened; otherwise `-e` runs
   the encrypt session with the encryption square and wins over `-d`, which
   runs the decrypt session with the decryption square on the lines of the
   file, and with neither flag only the usage message is printed. The
   decrypt session needs a file without upper-case letters, since the
   source raises `KeyError` on them.
   */
  function Run(key: string, encrypt: bool, decrypt: bool, terminator: string,
               input: seq<string>, fileText: string): (r: Outcome)
    requires KeyAccepted(key) && !encrypt && decrypt ==> LowerText(fileText)
    ensures r.KeyRejected? <==> !KeyAccepted(key)
    ensures r.KeyRejected? ==> r.reason == KeyMessage
    ensures r.Appended? <==> KeyAccepted(key) && encrypt
    ensures r.Appended? ==> |r.lines| <= |input| && (r.stopped <==> |r.lines| < |input|)
    ensures r.Printed? <==> KeyAccepted(key) && !encrypt && decrypt
    ensures r.Printed? ==> |r.lines| == |ReadLines(fileText)|
    ensures r.Usage? <==> KeyAccepted(key) && !encrypt && !decrypt
    ensures r.Usage? ==> r.message == UsageMessage
    ensures r.Appended? ==>
      && |LowerStr(key)| > 0 && CoversKey(TableGenerator().0, LowerStr(key))
      && r.lines == Encryptor(LowerStr(key), TableGenerator().0, terminator, input).written
      && r.stopped == Encryptor(LowerStr(key), TableGenerator().0, terminator, input).stopped
    ensures r.Printed? ==>
      && |LowerStr(key)| > 0 && CoversKey(TableGenerator().1, LowerStr(key))
      && (forall i | 0 <= i < |ReadLines(fileText)| :: LowerText(ReadLines(fileText)[i]))
      && r.lines == Decryptor(LowerStr(key), TableGenerator().1, ReadLines(fileText))
  {
    var k := LowerStr(key);
    if !IsAlphaText(k) then KeyRejected(KeyMessage)
    else
      var tables := TableGenerator();
      if encrypt then
        FullTableCoversKey(tables.0, k);
        var run := Encryptor(k, tables.0, terminator, input);
        Appended(run.written, run.stopped)
      else if decrypt then
        FullTableCoversKey(tables.1, k);
        ReadLinesLower(fileText);
        Printed(Decryptor(k, tables.1, ReadLines(fileText)))
      else Usage(UsageMessage)
  }

  /** The file text after a run: the encrypt session appends its lines, nothing else writes. */
  function FileAfter(r: Outcome, fileText: string): string {
    if r.Appended? then fileText + Concat(r.lines) else fileText
  }

  /** Every line of a sequence, lower-cased. */
  function LowerAll(lines: seq<string>): seq<string> {
    seq(|lines|, i requires 0 <= i < |lines| => LowerStr(lines[i]))
  }

  /** Decrypting two runs of lines one after the other prints their outputs one after the other. */
  lemma DecryptorAppend(key: string, d: Table, a: seq<string>, b: seq<string>)
    requires |key| > 0 && CoversKey(d, key)
    requires forall i | 0 <= i < |a| :: LowerText(a[i])
    requires forall i | 0 <= i < |b| :: LowerText(b[i])
    ensures forall i | 0 <= i < |a + b| :: LowerText((a + b)[i])
    ensures Decryptor(key, d, a + b) == Decryptor(key, d, a) + Decryptor(key, d, b)
  {
    var ab := a + b;
    assert forall i | 0 <= i < |ab| :: LowerText(ab[i]) by {
      forall i | 0 <= i < |ab|
        ensures LowerText(ab[i])
      {
        if i >= |a| {
          assert ab[i] == b[i - |a|];
        }
      }
    }
    var left := Decryptor(key, d, ab);
    var right := Decryptor(key, d, a) + Decryptor(key, d, b);
    forall i | 0 <= i < |ab|
      ensures left[i] == right[i]
    {
      DecryptorInOrder(key, d, ab, i);
      if i < |a| {
        DecryptorInOrder(key, d, a, i);
      } else {
        DecryptorInOrder(key, d, b, i - |a|);
        assert ab[i] == b[i - |a|];
      }
    }
  }

  /** The lines the encrypt session writes with a full square are complete lines without upper-case letters. */
  lemma {:induction false} WrittenLines(e: Table, key: string, terminator: string, input: seq<string>)
    requires IsEncryptTable(e)
    requires |key| > 0 && LettersOnly(key)
    requires forall i | 0 <= i < |input| :: NoNewline(input[i])
    ensures CoversKey(e, key)
    ensures forall i | 0 <= i < |Encryptor(key, e, terminator, input).written| ::
      var line := Encryptor(key, e, terminator, input).written[i];
      IsLine(line) && LowerText(line)
  {
    FullTableCoversKey(e, key);
    var written := Encryptor(key, e, terminator, input).written;
    forall i | 0 <= i < |written|
      ensures IsLine(written[i]) && LowerText(written[i])
    {
      EncryptorWrites(key, e, terminator, input, i);
      WrittenLine(e, key, input[i]);
    }
  }

  /** Lower-casing adds no newline. */
  lemma LowerKeepsNoNewline(typed: string)
    requires NoNewline(typed)
    ensures NoNewline(LowerStr(typed))
  {
    var message := LowerStr(typed);
    forall i | 0 <= i < |message|
      ensures message[i] != '\n'
    {
      if IsUpper(typed[i]) {
        assert IsLower(message[i]);
      }
    }
  }

  /** A text without upper-case letters or newlines, followed by a newline, is such a line. */
  lemma NewlineTerminated(text: string)
    requires LowerText(text) && NoNewline(text)
    ensures IsLine(text + "\n") && LowerText(text + "\n")
  {
    assert (text + "\n")[..|text|] == text;
    LowerTextAppend(text, "\n");
  }

  /** One encrypted line of text without newlines is a complete line without upper-case letters. */
  lemma EncryptLineIsLine(e: Table, key: string, message: string)
    requires IsEncryptTable(e)
    requires |key| > 0 && LettersOnly(key) && LowerText(message) && NoNewline(message)
    ensures CoversKey(e, key)
    ensures IsLine(EncryptLine(key, e, message))
    ensures LowerText(EncryptLine(key, e, message))
  {
    FullTableCoversKey(e, key);
    StreamLetters(message, key);
    FullTableKeepsLines(MessageMatcher(message, key), message, e);
    NewlineTerminated(Convert(MessageMatcher(message, key), message, e));
  }

  /** One written line is a complete line without upper-case letters. */
  lemma WrittenLine(e: Table, key: string, typed: string)
    requires IsEncryptTable(e)
    requires |key| > 0 && LettersOnly(key) && NoNewline(typed)
    ensures CoversKey(e, key)
    ensures IsLine(EncryptLine(key, e, LowerStr(typed)))
    ensures LowerText(EncryptLine(key, e, LowerStr(typed)))
  {
    LowerKeepsNoNewline(typed);
    EncryptLineIsLine(e, key, LowerStr(typed));
  }

  /** Decrypting the encryptions of typed lines prints the typed lines, lower-cased. */
  lemma DecryptEncrypted(e: Table, d: Table, key: string, input: seq<string>, written: seq<string>)
    requires IsEncryptTable(e) && IsDecryptTable(d)
    requires |key| > 0 && LettersOnly(key) && CoversKey(e, key) && CoversKey(d, key)
    requires |written| <= |input|
    requires forall i | 0 <= i < |input| :: NoNewline(input[i])
    requires forall i | 0 <= i < |written| ::
      LowerText(written[i]) && written[i] == EncryptLine(key, e, LowerStr(input[i]))
    ensures Decryptor(key, d, written) == LowerAll(input[..|written|])
  {
    var printed := Decryptor(key, d, written);
    var typed := LowerAll(input[..|written|]);
    forall i | 0 <= i < |written|
      ensures printed[i] == typed[i]
    {
      DecryptWrittenLine(e, d, key, written, i, input[i]);
    }
  }

  /** The decrypt session prints a line the encrypt session wrote as the typed line, lower-cased. */
  lemma DecryptWrittenLine(e: Table, d: Table, key: string, written: seq<string>, i: nat, typed: string)
    requires IsEncryptTable(e) && IsDecryptTable(d)
    requires |key| > 0 && LettersOnly(key) && NoNewline(typed) && CoversKey(e, key) && CoversKey(d, key)
    requires forall j | 0 <= j < |written| :: LowerText(written[j])
    requires i < |written| && written[i] == EncryptLine(key, e, LowerStr(typed))
    ensures Decryptor(key, d, written)[i] == LowerStr(typed)
  {
    DecryptorInOrder(key, d, written, i);
    LowerKeepsNoNewline(typed);
    LineRoundTrip(e, d, key, LowerStr(typed));
  }

  /**
   The program's round trip through its file: an encrypt run appends to a
   file of complete lines without upper-case letters, and a decrypt run
   with the same key then prints what it printed before, followed by the
   typed lines, lower-cased, up to the terminator.
   */
  lemma EncryptThenDecrypt(key: string, terminator: string, input: seq<string>, prior: string)
    requires KeyAccepted(key)
    requires forall i | 0 <= i < |input| :: NoNewline(input[i])
    requires LowerText(prior) && (|prior| == 0 || prior[|prior| - 1] == '\n')
    ensures Run(key, true, false, terminator, input, prior).Appended?
    ensures LowerText(FileAfter(Run(key, true, false, terminator, input, prior), prior))
    ensures Run(key, false, true, terminator, [], FileAfter(Run(key, true, false, terminator, input, prior), prior))
         == Printed(Run(key, false, true, terminator, [], prior).lines
                    + LowerAll(input[..|Run(key, true, false, terminator, input, prior).lines|]))
  {
    var k := LowerStr(key);
    ValidLoweredKeyIsLetters(key);
    var e, d := TableGenerator().0, TableGenerator().1;
    FullTableCoversKey(e, k);
    FullTableCoversKey(d, k);
    var written := Encryptor(k, e, terminator, input).written;
    assert Run(key, true, false, terminator, input, prior).lines == written;
    WrittenLines(e, k, terminator, input);
    forall i | 0 <= i < |written|
      ensures written[i] == EncryptLine(k, e, LowerStr(input[i]))
    {
      EncryptorWrites(k, e, terminator, input, i);
    }
    DecryptEncrypted(e, d, k, input, written);
    ConcatLower(written);
    LowerTextAppend(prior, Concat(written));
    ReadLinesAppend(prior, Concat(written));
    ReadLinesOfLines(written);
    ReadLinesLower(prior);
    DecryptorAppend(k, d, ReadLines(prior), written);
  }
}

=== FILE: converter.dfy ===
/**
 The character transform: the key stream and the message are walked side by
 side; each alphabetic message character is replaced by the table entry for
 its key letter, every other character is copied unchanged.
 */
module Converter {
  import opened Letters
  import opened TabulaRecta
  import opened KeyStream

  function Min(a: nat, b: nat): nat {
    if a <= b then a else b
  }

  /**
   Every lookup the transform makes is defined: at each alphabetic position
   both the key letter's row and the message letter's entry exist. The source
   raises `KeyError` otherwise.
   */
  predicate Lookupable(stream: string, message: string, table: Table) {
    forall i | 0 <= i < |stream| && i < |message| && IsAlpha(message[i]) ::
      stream[i] in table && message[i] in table[stream[i]]
  }

  /** The output character for one position of the walk. */
  function Step(k: char, m: char, table: Table): char
    requires IsAlpha(m) ==> k in table && m in table[k]
  {
    if IsAlpha(m) then table[k][m] else m
  }

  /**
   `converter`: `zip` pairs the two strings and stops at the shorter one, so
   the output is as long as the shorter input; each output position is the
   table entry for an alphabetic message character and the character itself
   otherwise.
   */
  function Convert(stream: string, message: string, table: Table): (out: string)
    requires Lookupable(stream, message, table)
    ensures |out| == Min(|stream|, |message|)
    ensures forall i | 0 <= i < |out| && !IsAlpha(message[i]) :: out[i] == message[i]
    ensures forall i | 0 <= i < |out| && IsAlpha(message[i]) ::
      stream[i] in table && message[i] in table[stream[i]] && out[i] == table[stream[i]][message[i]]
  {
    if |stream| == 0 || |message| == 0 then ""
    else
      assert Lookupable(stream[1..], message[1..], table) by {
        forall i | 0 <= i < |stream| - 1 && i < |message| - 1 && IsAlpha(message[1..][i])
          ensures stream[1..][i] in table && message[1..][i] in table[stream[1..][i]]
        {
          assert IsAlpha(message[i + 1]);
        }
      }
      [Step(stream[0], message[0], table)] + Convert(stream[1..], message[1..], table)
  }

  /**
   The classical Vigenere sum, stated independently of any table: each letter
   of the message moves forward by the index of the key letter beside it, and
   every other character is kept.
   */
  predicate VigenereSum(stream: string, message: string, out: string)
    requires LettersOnly(stream) && LowerText(message) && |message| <= |stream|
  {
    && |out| == |message|
    && forall i | 0 <= i < |message| ::
         if IsAlpha(message[i]) then out[i] == Shift(message[i], Idx(stream[i]))
         else out[i] == message[i]
  }

  /** A full square defines every lookup a key stream of letters makes on lower-case text. */
  lemma FullTableLookupable(stream: string, message: string, table: Table)
    requires IsEncryptTable(table) || IsDecryptTable(table)
    requires LettersOnly(stream) && LowerText(message)
    ensures Lookupable(stream, message, table)
  {
    forall i | 0 <= i < |stream| && i < |message| && IsAlpha(message[i])
      ensures stream[i] in table && message[i] in table[stream[i]]
    {
      if IsEncryptTable(table) {
        EncryptLookup(table, stream[i], message[i]);
      } else {
        DecryptLookup(table, stream[i], message[i]);
      }
    }
  }

  /**
   With an encryption square, the transform is the classical Vigenere sum:
   each letter moves forward by the index of its key letter, letters stay
   letters, and every other character stays where it was.
   */
  lemma ConvertIsVigenereSum(e: Table, stream: string, message: string)
    requires IsEncryptTable(e)
    requires LettersOnly(stream) && LowerText(message) && |message| <= |stream|
    ensures Lookupable(stream, message, e)
    ensures VigenereSum(stream, message, Convert(stream, message, e))
  {
    FullTableLookupable(stream, message, e);
    var out := Convert(stream, message, e);
    forall i | 0 <= i < |message| && IsAlpha(message[i])
      ensures out[i] == Shift(message[i], Idx(stream[i]))
    {
      EncryptLookup(e, stream[i], message[i]);
    }
  }

  /**
   The inverse of the Vigenere sum, stated independently of any table: each
   letter moves back by the index of the key letter beside it.
   */
  predicate VigenereDifference(stream: string, message: string, out: string)
    requires LettersOnly(stream) && LowerText(message) && |message| <= |stream|
  {
    && |out| == |message|
    && forall i | 0 <= i < |message| ::
         if IsAlpha(message[i]) then out[i] == Shift(message[i], 26 - Idx(stream[i]))
         else out[i] == message[i]
  }

  /** With a decryption square, the transform is the Vigenere difference. */
  lemma ConvertIsVigenereDifference(d: Table, stream: string, message: string)
    requires IsDecryptTable(d)
    requires LettersOnly(stream) && LowerText(message) && |message| <= |stream|
    ensures Lookupable(stream, message, d)
    ensures VigenereDifference(stream, message, Convert(stream, message, d))
  {
    FullTableLookupable(stream, message, d);
    var out := Convert(stream, message, d);
    forall i | 0 <= i < |message| && IsAlpha(message[i])
      ensures out[i] == Shift(message[i], 26 - Idx(stream[i]))
    {
      DecryptLookup(d, stream[i], message[i]);
    }
  }

  /** At a letter position, the difference undoes the sum. */
  lemma DifferenceUndoesSumAt(stream: string, message: string, cipher: string, plain: string, i: nat)
    requires LettersOnly(stream) && LowerText(message) && |message| <= |stream|
    requires VigenereSum(stream, message, cipher) && LowerText(cipher)
    requires VigenereDifference(stream, cipher, plain)
    requires i < |message|
    ensures plain[i] == message[i]
  {
    if IsAlpha(message[i]) {
      assert cipher[i] == Shift(message[i], Idx(stream[i]));
      assert plain[i] == Shift(cipher[i], 26 - Idx(stream[i]));
      ShiftInverse(message[i], Idx(stream[i]));
    }
  }

  /** The Vigenere sum of lower-case text is lower-case text. */
  lemma SumIsLowerText(stream: string, message: string, cipher: string)
    requires LettersOnly(stream) && LowerText(message) && |message| <= |stream|
    requires VigenereSum(stream, message, cipher)
    ensures LowerText(cipher)
  {
    forall i | 0 <= i < |cipher| && IsAlpha(cipher[i])
      ensures IsLower(cipher[i])
    {
      assert IsAlpha(message[i]);
    }
  }

  /**
   Decrypting with the same key stream undoes encrypting: for a message with
   no upper-case letters and a key stream of letters at least as long, the
   decryption square maps the ciphertext back to the message.
   */
  lemma ConvertRoundTrip(e: Table, d: Table, stream: string, message: string)
    requires IsEncryptTable(e) && IsDecryptTable(d)
    requires LettersOnly(stream) && LowerText(message) && |message| <= |stream|
    ensures Lookupable(stream, message, e)
    ensures Lookupable(stream, Convert(stream, message, e), d)
    ensures Convert(stream, Convert(stream, message, e), d) == message
  {
    ConvertIsVigenereSum(e, stream, message);
    var cipher := Convert(stream, message, e);
    SumIsLowerText(stream, message, cipher);
    ConvertIsVigenereDifference(d, stream, cipher);
    var plain := Convert(stream, cipher, d);
    forall i | 0 <= i < |message|
      ensures plain[i] == message[i]
    {
      DifferenceUndoesSumAt(stream, message, cipher, plain, i);
    }
  }

  /** A key of letters gives a key stream of letters. */
  lemma StreamLetters(message: string, key: string)
    requires |key| > 0 && LettersOnly(key)
    ensures LettersOnly(MessageMatcher(message, key))
  {
    var stream := MessageMatcher(message, key);
    forall i | 0 <= i < |stream|
      ensures IsLower(stream[i])
    {
      assert stream[i] == key[i % |key|];
    }
  }

  /**
   The round trip with the squares `table_generator` builds and the key
   stream that `message_matcher` aligns: a message with no upper-case
   letters, encrypted and then decrypted under a key of letters, comes back
   unchanged.
   */
  lemma KeyedRoundTrip(message: string, key: string)
    requires |key| > 0 && LettersOnly(key) && LowerText(message)
    ensures Lookupable(MessageMatcher(message, key), message, EncryptTable())
    ensures Lookupable(MessageMatcher(message, key),
                       Convert(MessageMatcher(message, key), message, EncryptTable()),
                       DecryptTable())
    ensures Convert(MessageMatcher(message, key),
                    Convert(MessageMatcher(message, key), message, EncryptTable()),
                    DecryptTable()) == message
  {
    StreamLetters(message, key);
    ConvertRoundTrip(EncryptTable(), DecryptTable(), MessageMatcher(message, key), message);
  }
}

=== FILE: key_stream.dfy ===
/**
 Key-stream alignment: the key phrase repeated as many whole times as fit in
 the message, followed by the prefix of the key that covers the remainder.
 */
module KeyStream {

  /** A positive multiple of a positive number is at least that number. */
  lemma {:induction false} MultipleAtLeast(a: int, m: int)
    requires a >= 1 && m > 0
    ensures a * m >= m
  {
    if a > 1 {
      MultipleAtLeast(a - 1, m);
      assert a * m == (a - 1) * m + m;
    }
  }

  /** The remainder of `q * m + r` by `m` is `r` when `0 <= r < m`. */
  lemma ModUnique(x: int, m: int, q: int, r: int)
    requires 0 <= r < m && x == q * m + r
    ensures x % m == r
  {
    var q', r' := x / m, x % m;
    assert x == q' * m + r';
    assert (q - q') * m == q * m - q' * m;
    if q > q' {
      MultipleAtLeast(q - q', m);
    } else if q < q' {
      assert (q' - q) * m == q' * m - q * m;
      MultipleAtLeast(q' - q, m);
    }
  }

  /** Whole multiples of `m` can be dropped from a remainder. */
  lemma ModAfterWholeReps(q: nat, j: nat, m: nat)
    requires 0 < m && j < m
    ensures (q * m + j) % m == j
  {
    ModUnique(q * m + j, m, q, j);
  }

  /** Taking one modulus off a number does not change its remainder. */
  lemma ModMinusOnce(i: int, m: int)
    requires 0 < m <= i
    ensures (i - m) % m == i % m
  {
    var q, r := i / m, i % m;
    assert i == q * m + r;
    assert i - m == (q - 1) * m + r;
    ModUnique(i - m, m, q - 1, r);
  }

  /** One more copy of `m` adds `m` to the product. */
  lemma MulSucc(n: nat, m: nat)
    requires n > 0
    ensures n * m == (n - 1) * m + m
  {
  }

  /** A text that repeats `s` from its start still does so with one more `s` in front. */
  lemma RepeatIndex(s: string, rest: string)
    requires |s| > 0 && forall i | 0 <= i < |rest| :: rest[i] == s[i % |s|]
    ensures forall i | 0 <= i < |s + rest| :: (s + rest)[i] == s[i % |s|]
  {
    var r := s + rest;
    forall i | |s| <= i < |r|
      ensures r[i] == s[i % |s|]
    {
      assert r[i] == rest[i - |s|];
      ModMinusOnce(i, |s|);
    }
  }

  /** `s * n`: the string `s` written `n` times in a row. */
  function Repeat(s: string, n: nat): (r: string)
    ensures |r| == n * |s|
    ensures |s| > 0 ==> forall i | 0 <= i < |r| :: r[i] == s[i % |s|]
  {
    if n == 0 then []
    else
      var rest := Repeat(s, n - 1);
      MulSucc(n, |s|);
      if |s| > 0 then
        RepeatIndex(s, rest);
        s + rest
      else
        s + rest
  }

  /**
   `message_matcher`: the key stream for a message. Position `i` of the stream
   carries the key letter at position `i mod |key|`, and the stream is exactly
   as long as the message, so the length assertion of the source never fails.
   The source divides with `/` and truncates with `int()`; on lengths this
   model considers that is natural-number division.
   */
  function MessageMatcher(message: string, key: string): (stream: string)
    requires |key| > 0
    ensures |stream| == |message|
    ensures forall i | 0 <= i < |stream| :: stream[i] == key[i % |key|]
  {
    var reps := |message| / |key|;
    var excess := |message| % |key|;
    var whole := Repeat(key, reps);
    var stream := whole + key[..excess];
    assert |stream| == |message|;
    forall i | |whole| <= i < |stream|
      ensures stream[i] == key[i % |key|]
    {
      ModAfterWholeReps(reps, i - |whole|, |key|);
    }
    stream
  }

  /**
   The stream for a longer message starts with the stream for a shorter one:
   the key restarts at position 0 for each message and nothing after a
   position changes the key letter used there.
   */
  lemma StreamPrefix(message: string, tail: string, key: string)
    requires |key| > 0
    ensures MessageMatcher(message + tail, key)[..|message|] == MessageMatcher(message, key)
  {
  }

  /** Two messages of the same length get the same key stream. */
  lemma StreamDependsOnLength(a: string, b: string, key: string)
    requires |key| > 0 && |a| == |b|
    ensures MessageMatcher(a, key) == MessageMatcher(b, key)
  {
  }
}

=== FILE: letters.dfy ===
/**
 Characters as the cipher sees them: the 26-letter lower-case alphabet, the
 test for "alphabetic" and the lower-casing applied to keys and input lines.
 Only ASCII letters are modelled as alphabetic.
 */
module Letters {

  /** The letter at position `n` of the alphabet. */
  function Letter(n: int): char
    requires 0 <= n < 26
  {
    ('a' as int + n) as char
  }

  /**
   The alphabet the tabula recta is built from, in order: the letter at
   position n has code point 'a' + n. Arithmetic on positions is modulo 26,
   written as the literal 26 throughout.
   */
  function Alphabet(): string {
    seq(26, Letter)
  }

  predicate IsLower(c: char) {
    'a' <= c <= 'z'
  }

  predicate IsUpper(c: char) {
    'A' <= c <= 'Z'
  }

  /** `str.isalpha` on a single character, restricted to ASCII. */
  predicate IsAlpha(c: char) {
    IsLower(c) || IsUpper(c)
  }

  /** A text whose letters are all lower case (what `.lower()` produces). */
  predicate LowerText(s: string) {
    forall i | 0 <= i < |s| :: IsAlpha(s[i]) ==> IsLower(s[i])
  }

  /** A text made of lower-case letters only (a validated, lowered key). */
  predicate LettersOnly(s: string) {
    forall i | 0 <= i < |s| :: IsLower(s[i])
  }

  /** `str.isalpha` on a whole string: false for the empty string. */
  predicate IsAlphaText(s: string) {
    |s| > 0 && forall i | 0 <= i < |s| :: IsAlpha(s[i])
  }

  /** The alphabet constant spells the letters 'a'..'z' in order. */
  lemma AlphabetSpelling()
    ensures |Alphabet()| == 26
    ensures forall n | 0 <= n < 26 :: Alphabet()[n] == ('a' as int + n) as char
  {
  }

  /** Position of a lower-case letter in the alphabet. */
  function Idx(c: char): (n: nat)
    requires IsLower(c)
    ensures n < 26 && Alphabet()[n] == c
  {
    AlphabetSpelling();
    c as int - 'a' as int
  }

  /** Every entry of the alphabet is a lower-case letter sitting at its own index. */
  lemma AlphabetLetters()
    ensures forall n | 0 <= n < 26 :: IsLower(Alphabet()[n]) && Idx(Alphabet()[n]) == n
  {
    forall n | 0 <= n < 26
      ensures IsLower(Alphabet()[n]) && Idx(Alphabet()[n]) == n
    {
      LetterAt(n);
    }
  }

  /** The letter at position `n` is lower case and its index is `n`. */
  lemma LetterAt(n: nat)
    requires n < 26
    ensures IsLower(Alphabet()[n]) && Idx(Alphabet()[n]) == n
  {
    AlphabetSpelling();
  }

  /** Lower-casing of one character: upper-case ASCII letters move to lower case. */
  function LowerChar(c: char): (d: char)
    ensures IsAlpha(d) <==> IsAlpha(c)
    ensures IsAlpha(d) ==> IsLower(d)
    ensures !IsUpper(c) ==> d == c
    ensures IsUpper(c) ==> Idx(d) == c as int - 'A' as int
  {
    if IsUpper(c) then (c as int - 'A' as int + 'a' as int) as char else c
  }

  /** `str.lower()`, character by character. */
  function LowerStr(s: string): (t: string)
    ensures |t| == |s|
    ensures LowerText(t)
    ensures forall i | 0 <= i < |s| :: IsAlpha(t[i]) <==> IsAlpha(s[i])
    ensures forall i | 0 <= i < |s| :: !IsUpper(s[i]) ==> t[i] == s[i]
    ensures forall i | 0 <= i < |s| :: IsUpper(s[i]) ==> IsLower(t[i]) && Idx(t[i]) == s[i] as int - 'A' as int
  {
    seq(|s|, i requires 0 <= i < |s| => LowerChar(s[i]))
  }

  /** Lower-casing changes nothing in a text that has no upper-case letters. */
  lemma LowerStrFixesLowerText(s: string)
    requires LowerText(s)
    ensures LowerStr(s) == s
  {
    var t := LowerStr(s);
    forall i | 0 <= i < |s|
      ensures t[i] == s[i]
    {
      assert !IsUpper(s[i]);
    }
  }

  /** Lower-casing is idempotent. */
  lemma LowerStrIdempotent(s: string)
    ensures LowerStr(LowerStr(s)) == LowerStr(s)
  {
    LowerStrFixesLowerText(LowerStr(s));
  }

  /** A key that passes validation after lower-casing consists of lower-case letters. */
  lemma ValidLoweredKeyIsLetters(key: string)
    requires IsAlphaText(LowerStr(key))
    ensures |LowerStr(key)| > 0 && LettersOnly(LowerStr(key))
  {
  }
}

=== FILE: session.dfy ===
/**
 The two sessions with their I/O abstracted: the encrypt session turns the
 lines typed at the prompt into the lines appended to the file, and the
 decrypt session turns the lines read from the file into the lines printed.
 */
module Session {
  import opened Letters
  import opened TabulaRecta
  import opened Converter
  import opened KeyStream

  /** The table has a row for every letter of the key, each row total over the letters. */
  predicate CoversKey(table: Table, key: string) {
    forall i, x | 0 <= i < |key| && IsLower(x) :: key[i] in table && x in table[key[i]]
  }

  predicate NoNewline(s: string) {
    forall i | 0 <= i < |s| :: s[i] != '\n'
  }

  /** A complete line as `readlines` yields it: text without newlines, then one newline. */
  predicate IsLine(s: string) {
    |s| > 0 && s[|s| - 1] == '\n' && NoNewline(s[..|s| - 1])
  }

  /** A full square covers every key made of letters. */
  lemma FullTableCoversKey(table: Table, key: string)
    requires IsEncryptTable(table) || IsDecryptTable(table)
    requires LettersOnly(key)
    ensures CoversKey(table, key)
  {
    forall i, x | 0 <= i < |key| && IsLower(x)
      ensures key[i] in table && x in table[key[i]]
    {
      if IsEncryptTable(table) {
        assert EncryptRow(table[key[i]], Idx(key[i]));
      } else {
        assert DecryptRow(table[key[i]], Idx(key[i]));
      }
    }
  }

  /**
   Every lookup of a session line is defined when the table covers the key.
   The sessions build the key stream inside `EncryptLine` and `DecryptLine`,
   so their preconditions speak of the key, not of the stream, and this is
   the key-based form of `FullTableLookupable`.
   */
  lemma StreamLookupable(key: string, table: Table, message: string)
    requires |key| > 0 && CoversKey(table, key) && LowerText(message)
    ensures Lookupable(MessageMatcher(message, key), message, table)
  {
    var stream := MessageMatcher(message, key);
    forall i | 0 <= i < |stream| && i < |message| && IsAlpha(message[i])
      ensures stream[i] in table && message[i] in table[stream[i]]
    {
      assert stream[i] == key[i % |key|];
    }
  }

  /** One pass of the encrypt loop body: the already lower-cased line, transformed, plus a newline. */
  function EncryptLine(key: string, e: Table, message: string): (line: string)
    requires |key| > 0 && CoversKey(e, key) && LowerText(message)
  {
    StreamLookupable(key, e, message);
    Convert(MessageMatcher(message, key), message, e) + "\n"
  }

  /**
   What an encrypt session writes: the file lines in order, and whether the
   session ended at the terminator (`false` means the input ran out first,
   where the source's `input()` raises `EOFError`).
   */
  datatype EncryptRun = EncryptRun(written: seq<string>, stopped: bool)

  /**
   `encryptor` over a finite sequence of typed lines: each line is lower-cased,
   and the first one equal to the terminator ends the session, so that it
   and every later line produce nothing; every earlier line is written.
   */
  function Encryptor(key: string, e: Table, terminator: string, input: seq<string>): (run: EncryptRun)
    requires |key| > 0 && CoversKey(e, key)
    ensures |run.written| <= |input|
    ensures forall i | 0 <= i < |run.written| :: LowerStr(input[i]) != terminator
    ensures run.stopped <==> |run.written| < |input|
    ensures run.stopped ==> LowerStr(input[|run.written|]) == terminator
    decreases |input|
  {
    if |input| == 0 then EncryptRun([], false)
    else
      var message := LowerStr(input[0]);
      if message == terminator then EncryptRun([], true)
      else
        var rest := Encryptor(key, e, terminator, input[1..]);
        assert forall i | 1 <= i < 1 + |rest.written| :: input[i] == input[1..][i - 1];
        EncryptRun([EncryptLine(key, e, message)] + rest.written, rest.stopped)
  }

  /** The line written in position `i` is the encryption of the typed line `i`, lower-cased, then a newline. */
  lemma {:induction false} EncryptorWrites(key: string, e: Table, terminator: string, input: seq<string>, i: nat)
    requires |key| > 0 && CoversKey(e, key)
    requires i < |Encryptor(key, e, terminator, input).written|
    ensures Encryptor(key, e, terminator, input).written[i] == EncryptLine(key, e, LowerStr(input[i]))
  {
    if i > 0 {
      EncryptorWrites(key, e, terminator, input[1..], i - 1);
      assert input[1..][i - 1] == input[i];
    }
  }

  /**
   The source compares the lower-cased input with the terminator as given, so
   a terminator holding an upper-case letter never ends the session: every
   typed line is encrypted and written.
   */
  lemma UpperCaseTerminatorNeverMatches(key: string, e: Table, terminator: string, input: seq<string>)
    requires |key| > 0 && CoversKey(e, key)
    requires exists i | 0 <= i < |terminator| :: IsUpper(terminator[i])
    ensures !Encryptor(key, e, terminator, input).stopped
    ensures |Encryptor(key, e, terminator, input).written| == |input|
  {
  }

  /** `str.strip('\n')`: newlines removed from both ends, none from the middle. */
  function StripNewlines(s: string): string
    decreases |s|
  {
    if |s| > 0 && s[0] == '\n' then StripNewlines(s[1..])
    else if |s| > 0 && s[|s| - 1] == '\n' then StripNewlines(s[..|s| - 1])
    else s
  }

  /** A text with no newline of its own comes back from stripping the newline added to it. */
  lemma StripAddedNewline(s: string)
    requires NoNewline(s)
    ensures StripNewlines(s + "\n") == s
  {
    var t := s + "\n";
    if |s| == 0 {
      assert t[1..] == s;
    } else {
      assert t[0] == s[0] && t[..|t| - 1] == s;
      assert StripNewlines(s) == s;
    }
  }

  /**
   One iteration of the decrypt loop: the key stream is aligned to the line
   as read, trailing newline included, and the newline is stripped after
   the transform.
   */
  function DecryptLine(key: string, d: Table, line: string): string
    requires |key| > 0 && CoversKey(d, key) && LowerText(line)
  {
    StreamLookupable(key, d, line);
    StripNewlines(Convert(MessageMatcher(line, key), line, d))
  }

  /** `decryptor` over the lines of the file, one printed line per line read. */
  function Decryptor(key: string, d: Table, lines: seq<string>): (printed: seq<string>)
    requires |key| > 0 && CoversKey(d, key)
    requires forall i | 0 <= i < |lines| :: LowerText(lines[i])
    ensures |printed| == |lines|
  {
    if |lines| == 0 then []
    else [DecryptLine(key, d, lines[0])] + Decryptor(key, d, lines[1..])
  }

  /** The line printed in position `i` is the decryption of the line read in position `i`. */
  lemma {:induction false} DecryptorInOrder(key: string, d: Table, lines: seq<string>, i: nat)
    requires |key| > 0 && CoversKey(d, key)
    requires forall j | 0 <= j < |lines| :: LowerText(lines[j])
    requires i < |lines|
    ensures Decryptor(key, d, lines)[i] == DecryptLine(key, d, lines[i])
  {
    var rest := lines[1..];
    assert Decryptor(key, d, lines) == [DecryptLine(key, d, lines[0])] + Decryptor(key, d, rest);
    if i > 0 {
      assert rest[i - 1] == lines[i];
      DecryptorInOrder(key, d, rest, i - 1);
    }
  }

  /** Joining two texts without upper-case letters gives such a text. */
  lemma LowerTextAppend(a: string, b: string)
    requires LowerText(a) && LowerText(b)
    ensures LowerText(a + b)
  {
    var ab := a + b;
    forall i | 0 <= i < |ab| && IsAlpha(ab[i])
      ensures IsLower(ab[i])
    {
      if i >= |a| {
        assert ab[i] == b[i - |a|];
      }
    }
  }

  /**
   A full square maps lower-case text to lower-case text and adds no
   newline: letters become letters and everything else is copied.
   */
  lemma FullTableKeepsLines(stream: string, message: string, table: Table)
    requires IsEncryptTable(table) || IsDecryptTable(table)
    requires LettersOnly(stream) && LowerText(message) && |message| <= |stream|
    ensures Lookupable(stream, message, table)
    ensures LowerText(Convert(stream, message, table))
    ensures NoNewline(message) ==> NoNewline(Convert(stream, message, table))
  {
    FullTableLookupable(stream, message, table);
    var out := Convert(stream, message, table);
    forall i | 0 <= i < |out|
      ensures IsLower(out[i]) || out[i] == message[i]
    {
      if IsAlpha(message[i]) {
        if IsEncryptTable(table) {
          EncryptLookup(table, stream[i], message[i]);
        } else {
          DecryptLookup(table, stream[i], message[i]);
        }
      }
    }
  }

  /** The transform of a line ending in a newline is the transform of the rest, then the newline. */
  lemma ConvertDropsNewline(stream: string, message: string, table: Table)
    requires |stream| == |message| + 1
    requires Lookupable(stream, message + "\n", table)
    ensures Lookupable(stream[..|message|], message, table)
    ensures Convert(stream, message + "\n", table) == Convert(stream[..|message|], message, table) + "\n"
  {
    var line := message + "\n";
    var short := stream[..|message|];
    forall i | 0 <= i < |short| && i < |message| && IsAlpha(message[i])
      ensures short[i] in table && message[i] in table[short[i]]
    {
      assert line[i] == message[i];
    }
    var long := Convert(stream, line, table);
    var out := Convert(short, message, table);
    forall i | 0 <= i < |message|
      ensures long[i] == out[i]
    {
      assert line[i] == message[i];
    }
    assert !IsAlpha(line[|message|]);
  }

  /**
   Aligning the key stream to a line together with its newline is harmless:
   the newline takes the last stream position, which no letter uses, and is
   then stripped, so the result is the transform of the line without it.
   */
  lemma NewlineDoesNotShiftKey(d: Table, key: string, message: string)
    requires IsDecryptTable(d)
    requires |key| > 0 && LettersOnly(key) && LowerText(message) && NoNewline(message)
    ensures LowerText(message + "\n")
    ensures CoversKey(d, key)
    ensures Lookupable(MessageMatcher(message, key), message, d)
    ensures DecryptLine(key, d, message + "\n") == Convert(MessageMatcher(message, key), message, d)
  {
    var line := message + "\n";
    LowerTextAppend(message, "\n");
    FullTableCoversKey(d, key);
    StreamLookupable(key, d, line);
    StreamPrefix(message, "\n", key);
    ConvertDropsNewline(MessageMatcher(line, key), message, d);
    StreamLetters(message, key);
    FullTableKeepsLines(MessageMatcher(message, key), message, d);
    StripAddedNewline(Convert(MessageMatcher(message, key), message, d));
  }

  /**
   A line written by the encrypt session and read back by the decrypt
   session, under the same key and a pair of full squares, prints as the
   lower-cased typed line.
   */
  lemma LineRoundTrip(e: Table, d: Table, key: string, message: string)
    requires IsEncryptTable(e) && IsDecryptTable(d)
    requires |key| > 0 && LettersOnly(key) && LowerText(message) && NoNewline(message)
    ensures CoversKey(e, key) && CoversKey(d, key)
    ensures LowerText(EncryptLine(key, e, message))
    ensures DecryptLine(key, d, EncryptLine(key, e, message)) == message
  {
    FullTableCoversKey(e, key);
    FullTableCoversKey(d, key);
    StreamLetters(message, key);
    var stream := MessageMatcher(message, key);
    FullTableKeepsLines(stream, message, e);
    var cipher := Convert(stream, message, e);
    assert EncryptLine(key, e, message) == cipher + "\n";
    NewlineDoesNotShiftKey(d, key, cipher);
    StreamDependsOnLength(cipher, message, key);
    ConvertRoundTrip(e, d, stream, message);
  }

  /** All lines joined back into one text. */
  function Concat(lines: seq<string>): string {
    if |lines| == 0 then "" else lines[0] + Concat(lines[1..])
  }

  /** Length of the first line of a non-empty text, its newline included. */
  function LineEnd(text: string): (n: nat)
    requires |text| > 0
    ensures 0 < n <= |text|
    ensures NoNewline(text[..n - 1])
    ensures n < |text| ==> text[n - 1] == '\n'
  {
    if text[0] == '\n' || |text| == 1 then 1
    else 1 + LineEnd(text[1..])
  }

  /**
   `readlines` on a text-mode file: the text cut after every newline, the
   last line possibly without one.
   */
  function ReadLines(text: string): seq<string>
    decreases |text|
  {
    if |text| == 0 then []
    else
      var n := LineEnd(text);
      [text[..n]] + ReadLines(text[n..])
  }

  /**
   Every line `readlines` returns is non-empty with no newline before its
   end, and every line but the last is a complete line.
   */
  lemma {:induction false} ReadLinesShape(text: string)
    ensures forall i | 0 <= i < |ReadLines(text)| ::
      |ReadLines(text)[i]| > 0 && NoNewline(ReadLines(text)[i][..|ReadLines(text)[i]| - 1])
    ensures forall i | 0 <= i < |ReadLines(text)| - 1 :: IsLine(ReadLines(text)[i])
    decreases |text|
  {
    if |text| > 0 {
      var n := LineEnd(text);
      var rest := ReadLines(text[n..]);
      ReadLinesShape(text[n..]);
      var lines := ReadLines(text);
      var first := text[..n];
      assert lines == [first] + rest;
      assert first[..n - 1] == text[..n - 1];
      forall i | 0 <= i < |lines|
        ensures |lines[i]| > 0 && NoNewline(lines[i][..|lines[i]| - 1])
      {
        if i > 0 {
          assert lines[i] == rest[i - 1];
        }
      }
      forall i | 0 <= i < |lines| - 1
        ensures IsLine(lines[i])
      {
        if i == 0 {
          assert n < |text|;
          assert first[n - 1] == '\n';
        } else {
          assert lines[i] == rest[i - 1];
        }
      }
    }
  }

  /** The lines `readlines` returns join back into the text: nothing is lost or reordered. */
  lemma {:induction false} ReadLinesJoin(text: string)
    ensures Concat(ReadLines(text)) == text
    decreases |text|
  {
    if |text| > 0 {
      var n := LineEnd(text);
      ReadLinesJoin(text[n..]);
      assert text == text[..n] + text[n..];
    }
  }

  /** Reading back a text made of complete lines gives exactly those lines. */
  lemma {:induction false} ReadLinesOfLines(lines: seq<string>)
    requires forall i | 0 <= i < |lines| :: IsLine(lines[i])
    ensures ReadLines(Concat(lines)) == lines
  {
    if |lines| > 0 {
      var first := lines[0];
      var text := Concat(lines);
      assert text == first + Concat(lines[1..]);
      assert text[..|first| - 1] == first[..|first| - 1];
      assert LineEnd(text) == |first| by {
        assert text[|first| - 1] == '\n';
      }
      assert text[|first|..] == Concat(lines[1..]);
      ReadLinesOfLines(lines[1..]);
    }
  }

  /** Text after a newline does not move the end of the first line. */
  lemma {:induction false} LineEndAppend(a: string, b: string)
    requires |a| > 0 && a[|a| - 1] == '\n'
    ensures LineEnd(a + b) == LineEnd(a)
    decreases |a|
  {
    if a[0] != '\n' {
      assert (a + b)[1..] == a[1..] + b;
      LineEndAppend(a[1..], b);
    }
  }

  /** Appending to a text that ends with a complete line adds the new lines after the old ones. */
  lemma {:induction false} ReadLinesAppend(a: string, b: string)
    requires |a| == 0 || a[|a| - 1] == '\n'
    ensures ReadLines(a + b) == ReadLines(a) + ReadLines(b)
    decreases |a|
  {
    if |a| == 0 {
      assert a + b == b;
    } else {
      var n := LineEnd(a);
      var ab := a + b;
      LineEndAppend(a, b);
      assert ab[..n] == a[..n];
      assert ab[n..] == a[n..] + b;
      ReadLinesAppend(a[n..], b);
      calc {
        ReadLines(ab);
        [a[..n]] + ReadLines(a[n..] + b);
        [a[..n]] + (ReadLines(a[n..]) + ReadLines(b));
        ([a[..n]] + ReadLines(a[n..])) + ReadLines(b);
        ReadLines(a) + ReadLines(b);
      }
    }
  }

  /** Cutting a text without upper-case letters into lines gives lines without upper-case letters. */
  lemma {:induction false} ReadLinesLower(text: string)
    requires LowerText(text)
    ensures forall i | 0 <= i < |ReadLines(text)| :: LowerText(ReadLines(text)[i])
    decreases |text|
  {
    if |text| > 0 {
      var n := LineEnd(text);
      assert LowerText(text[n..]) by {
        forall i | 0 <= i < |text[n..]| && IsAlpha(text[n..][i])
          ensures IsLower(text[n..][i])
        {
          assert text[n..][i] == text[n + i];
        }
      }
      ReadLinesLower(text[n..]);
    }
  }

  /** The lines of a joined sequence of texts are free of upper-case letters when every text is. */
  lemma {:induction false} ConcatLower(lines: seq<string>)
    requires forall i | 0 <= i < |lines| :: LowerText(lines[i])
    ensures LowerText(Concat(lines))
  {
    if |lines| > 0 {
      ConcatLower(lines[1..]);
      var text := Concat(lines);
      assert text == lines[0] + Concat(lines[1..]);
      forall i | 0 <= i < |text| && IsAlpha(text[i])
        ensures IsLower(text[i])
      {
        if i >= |lines[0]| {
          assert text[i] == Concat(lines[1..])[i - |lines[0]|];
        }
      }
    }
  }
}

=== FILE: tabula_recta.dfy ===
/**
 The tabula recta: for every key letter, a row mapping each letter of the
 alphabet to the letter shifted by the key letter's position, together with
 the inverse rows used for decryption. The tables are nested maps built the
 way the source builds its nested dictionaries, row by row from a doubled
 alphabet.
 */
module TabulaRecta {
  import opened Letters

  /** A nested lookup: key letter, then message letter, to output letter. */
  type Table = map<char, map<char, char>>

  /** The alphabet written twice, so that every rotation is a contiguous slice. */
  function Doubled(): string {
    Alphabet() + Alphabet()
  }

  /** The doubled alphabet is the literal the source slices its rows from. */
  lemma DoubledLiteral()
    ensures Doubled() == "abcdefghijklmnopqrstuvwxyzabcdefghijklmnopqrstuvwxyz"
  {
    assert Alphabet() == "abcdefghijklmnopqrstuvwxyz";
  }

  /** The letter `n` places after `x`, wrapping around the alphabet. */
  function Shift(x: char, n: nat): (y: char)
    requires IsLower(x)
    ensures IsLower(y)
  {
    LetterAt((Idx(x) + n) % 26);
    Alphabet()[(Idx(x) + n) % 26]
  }

  /** The alphabet rotated left by `i`: row `i` of the square. */
  function Row(i: nat): (row: string)
    requires i < 26
    ensures |row| == 26
    ensures forall j | 0 <= j < 26 :: row[j] == Alphabet()[(i + j) % 26]
    ensures LettersOnly(row)
  {
    AlphabetLetters();
    Doubled()[i..i + 26]
  }

  predicate Distinct(s: string) {
    forall i, j | 0 <= i < j < |s| :: s[i] != s[j]
  }

  /**
   A dictionary built from the pairs of two equally long strings. Later pairs
   overwrite earlier ones with the same key, as in a dict comprehension.
   */
  function ZipMap(keys: string, values: string): (m: map<char, char>)
    requires |keys| == |values|
    ensures forall c :: c in m <==> c in keys
    ensures Distinct(keys) ==> forall i | 0 <= i < |keys| :: m[keys[i]] == values[i]
  {
    if |keys| == 0 then map[]
    else
      var rest := ZipMap(keys[1..], values[1..]);
      assert Distinct(keys) ==> Distinct(keys[1..]) && keys[0] !in keys[1..];
      map[keys[0] := values[0]] + rest
  }

  /** An encryption row for the key letter at index `n`: total over the alphabet, shifting by `n`. */
  predicate EncryptRow(row: map<char, char>, n: nat) {
    && (forall x {:trigger x in row} :: x in row <==> IsLower(x))
    && forall x {:trigger row[x]} | IsLower(x) :: row[x] == Shift(x, n)
  }

  /**
   A decryption row for the key letter at index `n < 26`: total over the
   alphabet, shifting back by `n` (that is, forward by `26 - n`).
   */
  predicate DecryptRow(row: map<char, char>, n: nat)
    requires n < 26
  {
    && (forall y {:trigger y in row} :: y in row <==> IsLower(y))
    && forall y {:trigger row[y]} | IsLower(y) :: row[y] == Shift(y, 26 - n)
  }

  /** A full encryption square: one row per lower-case key letter and no other rows. */
  predicate IsEncryptTable(e: Table) {
    && (forall k {:trigger k in e} :: k in e <==> IsLower(k))
    && forall k | k in e :: EncryptRow(e[k], Idx(k))
  }

  /** A full decryption square: one row per lower-case key letter and no other rows. */
  predicate IsDecryptTable(d: Table) {
    && (forall k {:trigger k in d} :: k in d <==> IsLower(k))
    && forall k | k in d :: DecryptRow(d[k], Idx(k))
  }

  lemma AlphabetDistinct()
    ensures Distinct(Alphabet())
  {
    AlphabetSpelling();
  }

  /** Two positions of a row hold the same letter only if they are the same position. */
  lemma RowDistinct(i: nat)
    requires i < 26
    ensures Distinct(Row(i))
  {
    var row := Row(i);
    AlphabetDistinct();
    forall a, b | 0 <= a < b < |row|
      ensures row[a] != row[b]
    {
      assert (i + a) % 26 != (i + b) % 26;
    }
  }

  /** Row `i` starts with the `i`-th letter, which is the key letter of that row. */
  lemma RowKey(i: nat)
    requires i < 26
    ensures Row(i)[0] == Alphabet()[i] && IsLower(Row(i)[0]) && Idx(Row(i)[0]) == i
  {
    LetterAt(i);
  }

  /** Every letter `y` sits in row `i` at position `y + 26 - i`, modulo 26. */
  lemma RowPosition(i: nat, y: char)
    requires i < 26 && IsLower(y)
    ensures Row(i)[(Idx(y) + 26 - i) % 26] == y
  {
    var j := (Idx(y) + 26 - i) % 26;
    assert (i + j) % 26 == Idx(y);
  }

  /** Pairing the alphabet with row `i` gives the encryption row of the key letter at index `i`. */
  lemma EncryptPairing(i: nat)
    requires i < 26
    ensures EncryptRow(ZipMap(Alphabet(), Row(i)), i)
  {
    AlphabetDistinct();
    AlphabetLetters();
    var m := ZipMap(Alphabet(), Row(i));
    forall x
      ensures x in m <==> IsLower(x)
    {
      if IsLower(x) {
        assert Alphabet()[Idx(x)] == x;
      }
    }
    forall x | IsLower(x)
      ensures m[x] == Shift(x, i)
    {
      var j := Idx(x);
      assert m[Alphabet()[j]] == Row(i)[j];
      assert (i + j) % 26 == (j + i) % 26;
    }
  }

  /** Looking a letter up in the pairing of row `i` with the alphabet shifts it back by `i`. */
  lemma DecryptPairingAt(i: nat, y: char)
    requires i < 26 && IsLower(y)
    ensures y in ZipMap(Row(i), Alphabet()) && ZipMap(Row(i), Alphabet())[y] == Shift(y, 26 - i)
  {
    RowDistinct(i);
    RowPosition(i, y);
    var j := (Idx(y) + 26 - i) % 26;
    assert Row(i)[j] == y;
  }

  /** Only letters are looked up in the pairing of row `i` with the alphabet. */
  lemma DecryptPairingKeys(i: nat, y: char)
    requires i < 26 && y in ZipMap(Row(i), Alphabet())
    ensures IsLower(y)
  {
    var row := Row(i);
    assert y in row;
    var j :| 0 <= j < |row| && row[j] == y;
  }

  /** Pairing row `i` with the alphabet gives the decryption row of the key letter at index `i`. */
  lemma DecryptPairing(i: nat)
    requires i < 26
    ensures DecryptRow(ZipMap(Row(i), Alphabet()), i)
  {
    var m := ZipMap(Row(i), Alphabet());
    forall y | IsLower(y)
      ensures y in m && m[y] == Shift(y, 26 - i)
    {
      DecryptPairingAt(i, y);
    }
    forall y | y in m
      ensures IsLower(y)
    {
      DecryptPairingKeys(i, y);
    }
  }

  /**
   The tables after the first `n` iterations of the row loop: rows for the
   first `n` key letters, each the pairing of the alphabet with its rotation.
   */
  function Generate(n: nat): (t: (Table, Table))
    requires n <= 26
    ensures forall k {:trigger k in t.0} :: k in t.0 <==> IsLower(k) && Idx(k) < n
    ensures forall k {:trigger k in t.1} :: k in t.1 <==> IsLower(k) && Idx(k) < n
    ensures forall k | k in t.0 :: EncryptRow(t.0[k], Idx(k))
    ensures forall k | k in t.1 :: DecryptRow(t.1[k], Idx(k))
  {
    if n == 0 then (map[], map[])
    else
      var prev := Generate(n - 1);
      var letter := Row(n - 1);
      RowKey(n - 1);
      EncryptPairing(n - 1);
      DecryptPairing(n - 1);
      AlphabetSpelling();
      assert Doubled()[..26] == Alphabet();
      // zip stops at the shorter string, so only the first copy of the alphabet is paired
      (prev.0[letter[0] := ZipMap(Doubled()[..26], letter)],
       prev.1[letter[0] := ZipMap(letter, Doubled()[..26])])
  }

  /** `table_generator`: the encryption and decryption squares. */
  function TableGenerator(): (t: (Table, Table))
    ensures IsEncryptTable(t.0)
    ensures IsDecryptTable(t.1)
  {
    AlphabetSpelling();
    Generate(|Alphabet()|)
  }

  function EncryptTable(): (e: Table)
    ensures IsEncryptTable(e)
  {
    TableGenerator().0
  }

  function DecryptTable(): (d: Table)
    ensures IsDecryptTable(d)
  {
    TableGenerator().1
  }

  /** Shifting by `n` and then by `26 - n` comes back to the start, in either order. */
  lemma ShiftInverse(x: char, n: nat)
    requires IsLower(x) && n < 26
    ensures Shift(Shift(x, n), 26 - n) == x
    ensures Shift(Shift(x, 26 - n), n) == x
  {
    var a := Idx(x);
    var b := (a + n) % 26;
    var c := (a + 26 - n) % 26;
    if a + n < 26 {
      assert b == a + n;
    } else {
      assert b == a + n - 26;
    }
    if a < n {
      assert c == a + 26 - n;
    } else {
      assert c == a - n;
    }
    LetterAt(b);
    LetterAt(c);
    assert (b + 26 - n) % 26 == a;
    assert (c + n) % 26 == a;
  }

  /** Looking up a letter in a full encryption square shifts it by the key letter's index. */
  lemma EncryptLookup(e: Table, k: char, x: char)
    requires IsEncryptTable(e) && IsLower(k) && IsLower(x)
    ensures k in e && x in e[k] && e[k][x] == Shift(x, Idx(k))
  {
    assert k in e;
    assert EncryptRow(e[k], Idx(k));
  }

  /** Looking up a letter in a full decryption square shifts it back by the key letter's index. */
  lemma DecryptLookup(d: Table, k: char, y: char)
    requires IsDecryptTable(d) && IsLower(k) && IsLower(y)
    ensures k in d && y in d[k] && d[k][y] == Shift(y, 26 - Idx(k))
  {
    assert k in d;
    assert DecryptRow(d[k], Idx(k));
  }

  /** In any pair of full squares, each decryption row undoes the encryption row of the same key letter. */
  lemma DecryptUndoesEncrypt(e: Table, d: Table, k: char, x: char)
    requires IsEncryptTable(e) && IsDecryptTable(d)
    requires IsLower(k) && IsLower(x)
    ensures k in e && x in e[k] && IsLower(e[k][x])
    ensures k in d && e[k][x] in d[k] && d[k][e[k][x]] == x
  {
    EncryptLookup(e, k, x);
    DecryptLookup(d, k, e[k][x]);
    ShiftInverse(x, Idx(k));
  }

  /** In any pair of full squares, each encryption row undoes the decryption row of the same key letter. */
  lemma EncryptUndoesDecrypt(e: Table, d: Table, k: char, y: char)
    requires IsEncryptTable(e) && IsDecryptTable(d)
    requires IsLower(k) && IsLower(y)
    ensures k in d && y in d[k] && IsLower(d[k][y])
    ensures k in e && d[k][y] in e[k] && e[k][d[k][y]] == y
  {
    DecryptLookup(d, k, y);
    EncryptLookup(e, k, d[k][y]);
    ShiftInverse(y, Idx(k));
  }

  /** The generated squares are inverse to each other row by row. */
  lemma GeneratedTablesInverse(k: char, x: char)
    requires IsLower(k) && IsLower(x)
    ensures k in EncryptTable() && x in EncryptTable()[k]
    ensures k in DecryptTable() && EncryptTable()[k][x] in DecryptTable()[k]
    ensures DecryptTable()[k][EncryptTable()[k][x]] == x
    ensures x in DecryptTable()[k] && DecryptTable()[k][x] in EncryptTable()[k]
    ensures EncryptTable()[k][DecryptTable()[k][x]] == x
  {
    DecryptUndoesEncrypt(EncryptTable(), DecryptTable(), k, x);
    EncryptUndoesDecrypt(EncryptTable(), DecryptTable(), k, x);
  }
}
